=== FILE: README.md ===
# RDP Heartbeat: a Dafny model of its core

RDP Heartbeat is a small Windows desktop indicator. It shows a 16-pixel cyan
dot in the bottom-right corner of the work area. The dot's alpha pulses
between 0.3 and 1.0, so a user can see at a glance that a remote session is
alive. The window is borderless and click-through, and a tray icon shows
and hides it.

This project models the logic behind that behaviour as pure Dafny functions
over immutable data, with one module per source file:

- `ConfigStore` (`config_manager.py`): the settings map overlaid on eight
  shipped defaults. The JSON file is part of the state. `load` overlays the
  file, `get` falls back to the default, and `set` writes the whole map
  back. Whether the file system accepts a write is a parameter.
- `I18n` (`i18n.py`): the English and Chinese string tables and the
  two-tier lookup `t`. It also covers language choice at `init`, where
  "auto", an absent value or an unsupported one all mean the detected
  locale, and the guarded `set_language`. The module globals become a
  `Localizer` record, and the OS locale query is a parameter. i18n.py
  keeps a reference to the `ConfigManager` passed to `init`, which its
  caller may share. So `set_language` takes the current store and returns
  it updated, and writes made elsewhere in between are kept. None of the
  files modelled here creates a `ConfigManager` or calls `init`: how the
  pieces are wired together is outside this model.
- `WinUtils` (`win_utils.py`): the extended-style OR for click-through on
  `bv32`. It also covers the "#RRGGBB" to COLORREF `0x00BBGGRR` packing,
  the clamped alpha byte, and the single-instance mutex decision. Native
  calls are not made. Each one is returned as a `NativeCall` value that
  records its arguments. What the OS would answer comes in as parameters.
- `Heartbeat` (`heartbeat_window.py`): the `pulse` state machine, with
  alpha in integer hundredths (30..100, step 5, start 80). It also covers
  the initial placement and the 1-pixel oval inset, the `show`, `hide` and
  `apply_window_styles` handlers, and a small model of Tk's event loop. In
  that loop the `after` timers, the tray's show/hide commands and the
  `<Map>` event interleave arbitrarily.
- `Settings` (`settings_dialog.py`, logic only): the dialog fields read from
  the store and the edits a user can make. Save turns them into store
  writes; Cancel, close, Restore Defaults and Reset Position write nothing.

The main results:

- A store reopened from the file that a successful `save` wrote gives back
  the saved map exactly.
- The current language is always a supported one, whatever calls are made.
- Parsing a formatted colour gives back the colour, and the COLORREF
  packing is injective.
- On the wave, a pulse state recurs after exactly the multiples of 28
  ticks.
- Under any interleaving of events, exactly one pulse timer stays pending,
  hiding included. The alpha also stays on the wave, and the window keeps
  its initial geometry.
- A settings session touches no key outside the dialog's seven. It clears
  the saved position only when Reset Position was pressed.
- The single-instance guard as written does not stop a second launch,
  because it tests for error 184 where Windows reports 183 (see
  "## Findings"). With 183 it does.

Scope notes:

- The defaults table has no `language` or `auto_start` entry. So
  `get("language")` is `None` unless the loaded file or a later `set`
  supplies one.
- `pulse` uses the fixed bounds 0.3 and 1.0 and a fixed 50 ms delay. It does
  not read `opacity_min`, `opacity_max` or `pulse_speed_ms`.
- `heartbeat_window.py` has no move mode, no live reconciliation of the
  configuration and no handle re-resolution. It never reads the
  configuration and defines no `config_manager` attribute, which the
  tray's Settings entry in main.py:45 looks up.
- The default position button reads "Reset to Center (Default)", although
  the window sits in a corner.

## Model

| member | source | states |
|---|---|---|
| ConfigStore.Save | config_manager.py:49-64 | the map is unchanged; when the directory and file can be written the file then holds exactly the map, otherwise the file keeps what it had |
| ConfigStore.Load | config_manager.py:35-47 | no key is ever removed; a readable file's values win for its keys and every other key keeps its value; a missing file leaves the map as it is and, when writable, is created holding the map; an unreadable or unparsable file changes nothing |
| ConfigStore.Open | config_manager.py:17-20 | a fresh store holds every default key; file values win, defaults fill the keys the file lacks, and without a readable file the map equals the defaults |
| ConfigStore.Get | config_manager.py:66-67 | the stored value, else the default, else `None` for a key that is neither stored nor a default |
| ConfigStore.Set | config_manager.py:69-71 | the key is added with the new value, every other key keeps its value, and after a successful save the file equals the whole in-memory map |
| ConfigStore.SetThenGet | config_manager.py:66-71 | `get(k)` after `set(k, v)` is `v`, and `get` of any other key is what it was before |
| ConfigStore.DefaultsKept | config_manager.py:41-45 | neither `load` nor `set` can lose a default key |
| ConfigStore.OverlayCoversDefaults | config_manager.py:19-43 | overlaying a map that holds every default key onto the defaults gives that map back |
| ConfigStore.SaveThenReopen | config_manager.py:17-64 | a new store opened on the file a successful `save` wrote reproduces the saved map exactly |
| ConfigStore.SetThenReopen | config_manager.py:17-71 | a value written by a successful `set` is what a new store's `get` reads back |
| I18n.DetectSystemLanguage | i18n.py:101-109 | "zh" exactly when the locale code is a non-empty string starting with "zh"; "en" in every other case, including a failed query or no code |
| I18n.Init | i18n.py:89-98 | the store is marked attached; "auto", `None`/absent or an unsupported value yields the detected language, otherwise the configured code is used; the result is always supported |
| I18n.Translate | i18n.py:112-115 | the current table's string when it has the key; otherwise the English string; otherwise the key itself; a language without a table reads the English one |
| I18n.GetLanguage | i18n.py:118-120 | the code returned is the current language, so in a valid state it names a supported one |
| I18n.SetThenGetLanguage | i18n.py:118-130 | after `set_language(code)` for a supported code `get_language` reports that code, after "auto" the detected one, and after a rejected argument what it reported before |
| I18n.SetLanguage | i18n.py:123-130 | an argument that is neither supported nor "auto" changes nothing; "auto" switches to the detected language and a code to itself; when a store is attached the argument itself is written through `set` on the shared store, and otherwise the store is untouched; validity is kept |
| I18n.TablesCoverSameKeys | i18n.py:8-83 | the English and Chinese tables have the same keys |
| I18n.TranslateFallback | i18n.py:112-115 | in a valid state a known key is answered from the current language's table and an unknown key is returned unchanged |
| I18n.CurrentAlwaysSupported | i18n.py:85-130 | starting from "en", any sequence of `init` and `set_language` calls and other store writes leaves the current language supported |
| I18n.RunKeepsValid | i18n.py:89-130 | every call sequence preserves a supported current language |
| I18n.SharedWritesSurvive | i18n.py:92-129 | a value another component wrote to the shared store before `set_language` is still read back afterwards, and is in the file once saved |
| I18n.SetLanguageThenReopen | i18n.py:89-130 | a code persisted by `set_language` is the language `init` picks on a store reopened from the written file |
| I18n.SetAutoThenReopen | i18n.py:89-130 | "auto" persisted by `set_language` makes a later `init` use the locale detected then |
| WinUtils.ClickThroughStyle | win_utils.py:23-24 | the new style has both the layered and the transparent bit set and keeps every bit that was set before |
| WinUtils.ClickThroughKeepsOtherBits | win_utils.py:24 | outside the two click-through bits the new style equals the old one |
| WinUtils.ClickThroughIdempotent | win_utils.py:24 | applying the click-through style twice gives the same style as once |
| WinUtils.ClickThroughFixesClickThrough | win_utils.py:24 | a style is left unchanged exactly when it already has both click-through bits |
| WinUtils.SetClickThrough | win_utils.py:13-26 | no native call off Windows; on Windows exactly one `SetWindowLongW` on `GWL_EXSTYLE` with the old style OR the layered and transparent bits |
| WinUtils.Slice | win_utils.py:42-44 | Python slicing with both ends clamped to the string's length |
| WinUtils.ParseHexField | win_utils.py:42-44 | a one- or two-character field parses exactly when every character is a hex digit, to its base-16 value |
| WinUtils.ParseColorKey | win_utils.py:40-44 | a colour exactly when the three fields at characters 1-2, 3-4 and 5-6 all parse, with those fields as red, green and blue |
| WinUtils.ColorRef | win_utils.py:45 | the packed key is below 2^24 and its bytes 0, 1 and 2 are red, green and blue |
| WinUtils.ColorRefInjective | win_utils.py:45 | different colours pack to different keys |
| WinUtils.ParseFormatRoundTrip | win_utils.py:40-44 | parsing the "#RRGGBB" spelling of a colour gives that colour back |
| WinUtils.Trunc | win_utils.py:47 | `int()` on a float: truncation toward zero, within one of the argument |
| WinUtils.AlphaByte | win_utils.py:47-50 | the alpha byte is in 0..255, equals `trunc(alpha * 255)` when that is already in range, and is 0 or 255 when it is below or above |
| WinUtils.AlphaByteMonotonic | win_utils.py:47-50 | a larger alpha never gives a smaller byte |
| WinUtils.SetLayeredAttributes | win_utils.py:28-54 | no native call off Windows or for a colour that does not parse; otherwise exactly one `SetLayeredWindowAttributes` with the packed key, the clamped alpha byte and both flags |
| WinUtils.CreateSingleInstanceMutex | win_utils.py:82-102 | as written: `None` exactly when, on Windows, the last error equals the constant 184 the code compares with; 0 off Windows; the mutex handle otherwise |
| WinUtils.CreateSingleInstanceMutexIntended | win_utils.py:82-102 | the intended guard: `None` exactly when, on Windows, the OS reports `ERROR_ALREADY_EXISTS` (183); 0 off Windows; the handle otherwise |
| WinUtils.MutexLastError | win_utils.py:93-95 | the last error after `CreateMutexW` is `ERROR_ALREADY_EXISTS` (183) exactly when the name already exists, and 0 for a new name |
| WinUtils.SecondLaunchNotBlocked | win_utils.py:91-102 | as written, a second launch under the same name also gets a handle, so it does not exit |
| WinUtils.SecondLaunchBlocked | win_utils.py:91-102 | with the intended guard, the first launch gets its handle and the second gets `None` |
| Heartbeat.StepPulse | heartbeat_window.py:68-79 | falling: clamp to 0.3 and turn rising when a step would reach 0.3, else drop by 0.05; rising mirrors this at 1.0; the direction flips exactly at the bounds; the bounds are preserved |
| Heartbeat.StaysInRange | heartbeat_window.py:68-79 | an alpha in 0.3..1.0 stays in range after any number of ticks |
| Heartbeat.StepAdvancesPhase | heartbeat_window.py:68-79 | on the 28-state wave each tick moves one position forward, wrapping after 28 |
| Heartbeat.IteratePhase | heartbeat_window.py:68-88 | after n ticks a wave state has moved n positions, modulo 28 |
| Heartbeat.PhaseDetermines | heartbeat_window.py:68-79 | two wave states at the same position are the same state |
| Heartbeat.WaveIsPeriodic | heartbeat_window.py:68-88 | a wave state returns to itself after n ticks exactly when n is a multiple of 28 |
| Heartbeat.FirstPulse | heartbeat_window.py:44-52 | the `pulse()` run by the constructor turns 0.80 falling into 0.75 falling, a state on the wave |
| Heartbeat.AlphaByteBounds | heartbeat_window.py:81-86 | every in-range alpha sends a byte between 76 (for 0.30) and 255 |
| Heartbeat.InitialGeometry | heartbeat_window.py:19-42 | a 16x16 window with its bottom-right corner 8 px inside the work area, or inside the screen when the work-area query fails; the oval is inset by 1 px on every side and filled cyan |
| Heartbeat.BackgroundColorKey | heartbeat_window.py:15 | the background "#000001" parses, and its COLORREF is 0x010000 |
| Heartbeat.ApplyWindowStyles | heartbeat_window.py:54-66 | on Windows exactly two calls: the extended style with both click-through bits added, then the colour key 0x010000 with the current alpha byte and both flags; no call elsewhere; window state and timers untouched |
| Heartbeat.Tick | heartbeat_window.py:68-88 | the pulse steps; on Windows exactly one colour-key call with key 0x010000 and the new alpha byte, none elsewhere; the next tick is always scheduled after 50 ms |
| Heartbeat.Show | heartbeat_window.py:90-93 | the window becomes visible, pulse and geometry unchanged, and the styles are re-applied 10 ms later |
| Heartbeat.Hide | heartbeat_window.py:95-96 | the window becomes hidden; pulse, geometry, native calls and timers are untouched |
| Heartbeat.VisibilityIndependentOfPulse | heartbeat_window.py:68-96 | showing or hiding does not change what the next tick does to the alpha, what it sends, or what it schedules |
| Heartbeat.Create | heartbeat_window.py:5-52 | the constructor places the window, starts visible, runs one pulse from 0.80 falling and leaves one pulse timer pending |
| Heartbeat.DispatchKeepsInvariant | heartbeat_window.py:48-96 | any one event keeps exactly one pulse timer pending, the alpha on the wave and the geometry fixed |
| Heartbeat.RunKeepsInvariant | heartbeat_window.py:48-96 | the same holds for every sequence of events |
| Heartbeat.PulseRunsForever | heartbeat_window.py:5-96 | from construction on, under any interleaving of timers, show, hide and map events, the pulse timer is never lost or duplicated, the alpha stays in 0.3..1.0 and the geometry never changes |
| Settings.OpacityPercent | settings_dialog.py:26 | `int(opacity_max * 100)`: the truncated percentage of a number or boolean, and failure for any other value |
| Settings.PositionLabel | settings_dialog.py:126-129 | the button reads "Reset to Default Position" exactly when `window_x` is not `None`, and "Reset to Center (Default)" otherwise |
| Settings.Open | settings_dialog.py:21-129 | the fields are read from the store for colour, size, opacity percent, speed and topmost; the reset flag starts false; opening fails exactly when the opacity cannot be converted or the size or speed value is a string the Tk `IntVar` cannot read back, or the topmost value is a string or a float, which `BooleanVar` rejects |
| Settings.ResetPosition | settings_dialog.py:181-183 | sets the reset flag and the pending label; every other field is unchanged |
| Settings.RestoreDefaults | settings_dialog.py:185-200 | the five fields get the shipped defaults; the reset flag and the label are unchanged |
| Settings.OpacityFraction | settings_dialog.py:205 | the fraction written back is the percentage divided by 100 |
| Settings.WriteFields | settings_dialog.py:203-207 | the five `set` calls update exactly the five field keys, in order; when the last of their saves succeeds the file holds the result, and when all fail the file is untouched |
| Settings.ClearPosition | settings_dialog.py:209-211 | the two `set` calls put `None` at `window_x` and `window_y`; when the second save succeeds the file holds the result, and when both fail it is untouched |
| Settings.SaveSettings | settings_dialog.py:202-214 | all five field keys are present afterwards; when the final `save` succeeds the file equals the final map whatever the earlier saves did, and when every save fails the file is untouched |
| Settings.PartialSave | settings_dialog.py:202-213 | Save is not one transaction: when only the first `set` reaches the disk, the file holds the new colour and every other value as before |
| Settings.SaveSettingsWrites | settings_dialog.py:202-213 | afterwards `get` gives the five field values; `window_x` and `window_y` read `None` when a reset was requested and keep their earlier values when it was not |
| Settings.SaveSettingsKeepsOthers | settings_dialog.py:202-213 | every key other than the seven dialog keys (`opacity_min`, `language`, ...) is exactly as it was |
| Settings.SaveSettingsKeepsDefaults | settings_dialog.py:202-213 | Save cannot lose a default key |
| Settings.RestoreThenSave | settings_dialog.py:185-213 | Restore Defaults then Save stores the shipped defaults for the five fields |
| Settings.OpenThenSave | settings_dialog.py:21-213 | opening the dialog and saving at once writes back the colour, size, speed and topmost values it read |
| Settings.Edit | settings_dialog.py:172-200 | each slider, switch or colour edit changes only its own field; a dismissed or empty colour choice keeps the colour; Reset Position and Restore Defaults act as `reset_position` and `restore_defaults`; only Reset Position sets the reset flag and no edit clears it |
| Settings.Begin | settings_dialog.py:21-33 | opening the dialog writes nothing |
| Settings.WithoutSaveStoreUnchanged | settings_dialog.py:148-200 | with no Save, no sequence of edits, Restore Defaults, Reset Position, Cancel or close changes the store |
| Settings.SessionKeepsOtherKeys | settings_dialog.py:165-214 | no session changes a key outside the dialog's seven |
| Settings.PositionClearedOnlyOnReset | settings_dialog.py:181-214 | a session without Reset Position leaves `window_x` and `window_y` as they were |
| Settings.ClosedStays | settings_dialog.py:165-166 | once the dialog is destroyed, nothing further happens |

## Left out

- Widgets, layout, the colour chooser and dialog dragging: these are
  presentation. The chooser's answer is an action parameter.
- The ctypes calls themselves (`GetWindowLongW`, `SetWindowLongW`,
  `SetLayeredWindowAttributes`, `CreateMutexW`, `GetLastError`,
  `winfo_id`): they are recorded effects or parameters. An exception from
  these calls is not modelled.
- `set_dpi_awareness`, `get_work_area` (including its broken non-Windows
  branch) and `release_mutex`: these are OS plumbing. The work-area
  answer, or its failure, is part of the `Screen` parameter.
- File-system and JSON I/O: the file is a `FileState` value, and a failed
  directory creation or write leaves it unchanged. A file holding valid
  JSON that is not an object, a value `json.dump` cannot serialise, and a
  write that fails halfway are not modelled.
- Binary floating point: alpha is exact hundredths, so rounding drift in
  the repeated ±0.05 of `pulse` is not modelled. The drift can lower the
  byte sent by one. In IEEE doubles 0.8 − 4×0.05 is 0.5999999999999999,
  so the program sends 152 where `Tick` sends 153. At 0.80 falling it
  sends 203 where the model sends 204.
- Settings.OpenThenSave: the opacity percentage and fraction round trip is
  not claimed, because `int(x * 100)` on binary floats is not exact.
- WinUtils.ParseHexField: `int(s, 16)` also accepts surrounding
  whitespace, a sign, underscores and non-ASCII digits. The model treats
  those fields as malformed.
- WinUtils.ColorRef: the packed key is stated as the weighted sum of the
  bytes. Its equality with the shift-and-OR form is `WinUtils.PackIsSum`,
  stated on 32-bit words. The step between integers and words is not
  proved.
- Settings.OpacityPercent: the percentage is computed on exact reals,
  while the program multiplies binary floats. The float result can be one
  lower: `int(0.29 * 100)` is 28, because the product is
  28.999999999999996, where the model gives 29. So the dialog's own Save
  of 29 % reopens as 28 %. Separately, a string `opacity_max` would be
  repeated 100 times by `*` and then fail in `int()` or yield a number.
  The model treats every non-numeric value as a failure to open.
- Settings.Open: Tcl also reads strings that spell a number (for
  `dot_size` and `pulse_speed_ms`) or a boolean (for `always_on_top`).
  The model treats every string in those fields as a failure to open.
  A `dot_color` that Tk cannot draw also makes `__init__` raise, in the
  colour button at settings_dialog.py:84-86. That covers an unknown name,
  a malformed hex string, and a non-string value read back as text, such
  as 5 read as "5". The model opens the dialog in those cases, because
  which colour names Tk knows is not modelled.
- Tk's coercion of readable values and the slider ranges: fields hold the
  values they were given, and Save writes them back unchanged. In the
  program an `IntVar` given 16.5 reads back 16, and a variable given
  `None` reads back 0 or False.
- The NaN and infinite alpha inputs of `set_layered_attributes`: `real`
  has no such values.
- The tray icon, `main.py` threading and the cross-thread `after(0, ...)`
  hand-off: tray_icon.py and main.py are not part of this model. The tray's
  commands appear only as the `ShowCommand` and `HideCommand` events.
- startup.py, logger.py, about_dialog.py, demo.py, build_release.py and
  packaging/: these are not part of this model. Logging calls are dropped.
- Elapsed time: the event loop lets any pending timer fire next, so the 10
  and 50 ms delays are recorded but not ordered.
- The OS's answers during an event-loop run: one `Native` value serves the
  whole run, so `GetWindowLongW` always reports the style from before the
  first call. By `WinUtils.ClickThroughIdempotent` a later re-read would
  give the same style to write, so no logged call differs.
- Other writers of the shared store while the settings dialog is open: a
  dialog session works on the store it was opened with.
- `get_available_languages`: it only returns a copy of the constant
  `Languages`.

## Findings

| source | as written | input that shows it | evidently intended | confidence | as-written member | corrected member |
|---|---|---|---|---|---|---|
| win_utils.py:91-95 | the guard compares `GetLastError()` with 184, which it names `ERROR_ALREADY_EXISTS` | a second launch on Windows while the first holds the mutex: `CreateMutexW` reports `ERROR_ALREADY_EXISTS`, which winerror.h defines as 183, so the guard returns the handle and main.py:20-23 does not exit | compare with 183, so the second launch gets `None` and exits | high; not executed | WinUtils.SecondLaunchNotBlocked | WinUtils.SecondLaunchBlocked |

=== FILE: config_store.dfy ===
/**
 * The persisted settings store (`ConfigManager`): an in-memory map from
 * setting names to JSON scalars, overlaid on a fixed table of defaults and
 * written back in full to a JSON file on every change.
 *
 * The file is part of the state (`Store.file`); whether the file system
 * accepts a write is the `writable` parameter of every operation that
 * writes. All I/O errors are swallowed by the store, so no operation here
 * can fail: a failed read leaves the map alone, a failed write leaves the
 * file alone.
 */
module ConfigStore {

  /** A JSON scalar as `json.dump`/`json.load` round-trip it; Python's `None` is `Null`. */
  datatype Value = Str(s: string) | Int(i: int) | Real(r: real) | Bool(b: bool) | Null

  type Config = map<string, Value>

  /** The eight shipped defaults, in the order the store declares them. */
  const DefaultConfig: Config := map[
    "dot_color" := Str("#00FFFF"),
    "dot_size" := Int(16),
    "opacity_max" := Real(1.0),
    "opacity_min" := Real(0.3),
    "pulse_speed_ms" := Int(50),
    "always_on_top" := Bool(true),
    "window_x" := Null,
    "window_y" := Null
  ]

  /** What the configuration file holds: nothing, something that cannot be read or parsed, or a JSON object. */
  datatype FileState = Missing | Unreadable | Stored(contents: Config)

  datatype Store = Store(config: Config, file: FileState)

  /** Every default key has an entry in the map. */
  ghost predicate HasDefaults(c: Config)
  {
    DefaultConfig.Keys <= c.Keys
  }

  /** The file holds exactly the in-memory map. */
  ghost predicate Persisted(s: Store)
  {
    s.file == Stored(s.config)
  }

  /**
   * `save`: dump the whole map to the file. When the directory cannot be
   * created or the file cannot be opened for writing, the error is
   * swallowed and the file keeps what it had.
   */
  function Save(s: Store, writable: bool): (r: Store)
    ensures r.config == s.config
    ensures writable ==> Persisted(r)
    ensures !writable ==> r.file == s.file
  {
    if writable then s.(file := Stored(s.config)) else s
  }

  /**
   * `load`: overlay a readable file's object onto the map (file values win,
   * no key is ever removed); create the file from the map when there is
   * none; ignore a file that cannot be read or parsed.
   */
  function Load(s: Store, writable: bool): (r: Store)
    ensures s.config.Keys <= r.config.Keys
    ensures s.file.Stored? ==>
              && r.file == s.file
              && r.config.Keys == s.config.Keys + s.file.contents.Keys
              && (forall k :: k in s.file.contents ==> r.config[k] == s.file.contents[k])
              && (forall k :: k in s.config && k !in s.file.contents ==> r.config[k] == s.config[k])
    ensures s.file.Missing? ==> r.config == s.config && (writable ==> Persisted(r)) && (!writable ==> r.file == Missing)
    ensures s.file.Unreadable? ==> r == s
  {
    match s.file
    case Stored(m) => s.(config := s.config + m)
    case Missing => Save(s, writable)
    case Unreadable => s
  }

  /** `ConfigManager(...)`: start from a copy of the defaults, then `load`. */
  function Open(file: FileState, writable: bool): (r: Store)
    ensures HasDefaults(r.config)
    ensures file.Stored? ==> r.config.Keys == DefaultConfig.Keys + file.contents.Keys
    ensures file.Stored? ==> forall k :: k in file.contents ==> r.config[k] == file.contents[k]
    ensures file.Stored? ==> forall k :: k in DefaultConfig && k !in file.contents ==> r.config[k] == DefaultConfig[k]
    ensures !file.Stored? ==> r.config == DefaultConfig
  {
    Load(Store(DefaultConfig, file), writable)
  }

  /**
   * `get`: the stored value, else the default, else `None`. A key stored
   * as `None` and a key that is absent are indistinguishable to callers.
   */
  function Get(s: Store, key: string): (v: Value)
    ensures key in s.config ==> v == s.config[key]
    ensures key !in s.config && key in DefaultConfig ==> v == DefaultConfig[key]
    ensures key !in s.config && key !in DefaultConfig ==> v == Null
  {
    if key in s.config then s.config[key]
    else if key in DefaultConfig then DefaultConfig[key]
    else Null
  }

  /** `set`: update one key in memory, then `save` the whole map. */
  function Set(s: Store, key: string, value: Value, writable: bool): (r: Store)
    ensures r.config.Keys == s.config.Keys + {key}
    ensures r.config[key] == value
    ensures forall k :: k in s.config && k != key ==> r.config[k] == s.config[k]
    ensures writable ==> Persisted(r)
    ensures !writable ==> r.file == s.file
  {
    Save(s.(config := s.config[key := value]), writable)
  }

  /** `set(k, v)` then `get(k)` gives back `v`; every other key reads as before. */
  lemma SetThenGet(s: Store, key: string, value: Value, writable: bool, other: string)
    ensures Get(Set(s, key, value, writable), key) == value
    ensures other != key ==> Get(Set(s, key, value, writable), other) == Get(s, other)
  {
  }

  /** Neither `load` nor `set` can lose a default key. */
  lemma DefaultsKept(s: Store, key: string, value: Value, writable: bool)
    requires HasDefaults(s.config)
    ensures HasDefaults(Load(s, writable).config)
    ensures HasDefaults(Set(s, key, value, writable).config)
  {
  }

  /**
   * Overlaying a map that already holds every default key onto the
   * defaults gives back that map: the defaults leave no trace.
   */
  lemma OverlayCoversDefaults(m: Config)
    requires HasDefaults(m)
    ensures DefaultConfig + m == m
  {
    var u := DefaultConfig + m;
    assert u.Keys == m.Keys;
    forall k | k in u
      ensures u[k] == m[k]
    {
    }
  }

  /**
   * A fresh store opened on the file that a successful `save` wrote
   * reproduces the saved map exactly, because that map already holds every
   * default key.
   */
  lemma SaveThenReopen(s: Store, writable: bool)
    requires HasDefaults(s.config)
    ensures Open(Save(s, true).file, writable).config == s.config
  {
    OverlayCoversDefaults(s.config);
  }

  /** A value written by a successful `set` is what a fresh store reads back. */
  lemma SetThenReopen(s: Store, key: string, value: Value, writable: bool)
    ensures Get(Open(Set(s, key, value, true).file, writable), key) == value
  {
  }
}

=== FILE: heartbeat.dfy ===
/**
 * The overlay window (`BreatheWindow`): a 16x16 borderless window in the
 * bottom-right corner of the work area, holding a dot inset by one pixel,
 * whose whole-window alpha follows a triangular wave between 0.3 and 1.0
 * in steps of 0.05, one step per 50 ms timer tick.
 *
 * Alpha is kept in integer hundredths (30..100, step 5, start 80) so that
 * the wave is exact. Tk calls (`after`, `deiconify`, `withdraw`) become
 * state changes and `Timer` values; Win32 calls are recorded through
 * `WinUtils`. The last section strings the handlers together into Tk's
 * single-threaded event loop.
 */
module Heartbeat {
  import opened Wrappers
  import opened WinUtils

  const Size := 16
  const Margin := 8
  const Padding := 1
  /** The window background, made fully transparent by the colour key. */
  const BackgroundColor := "#000001"
  const DotColor := "#00FFFF"

  const Step := 5
  const MinAlpha := 30
  const MaxAlpha := 100
  const StartAlpha := 80
  const PulseDelayMs := 50
  const ShowDelayMs := 10
  /** Ticks in one full wave: 2 * (MaxAlpha - MinAlpha) / Step. */
  const WavePeriod := 28

  // ---------------------------------------------------------------------
  // The pulse state machine

  datatype Fade = Falling | Rising

  /** `alpha` in hundredths; `fade` is `BreatheWindow.fading_out` (Falling == True). */
  datatype Pulse = Pulse(alpha: int, fade: Fade)

  /** The animation state `__init__` sets before its first `pulse()` call. */
  const InitialPulse := Pulse(StartAlpha, Falling)

  function AlphaFraction(p: Pulse): real
  {
    p.alpha as real / 100.0
  }

  ghost predicate InRange(p: Pulse)
  {
    MinAlpha <= p.alpha <= MaxAlpha
  }

  /**
   * One `pulse()` step. Falling: drop by a step, and on reaching the lower
   * bound clamp to it and turn to Rising. Rising: the mirror image at the
   * upper bound.
   */
  function StepPulse(p: Pulse): (q: Pulse)
    ensures InRange(p) ==> InRange(q)
    ensures q.fade != p.fade <==>
              (p.fade == Falling && p.alpha - Step <= MinAlpha) || (p.fade == Rising && p.alpha + Step >= MaxAlpha)
    ensures q.fade != p.fade ==> q.alpha == (if p.fade == Falling then MinAlpha else MaxAlpha)
    ensures q.fade == p.fade ==> q.alpha == (if p.fade == Falling then p.alpha - Step else p.alpha + Step)
    ensures InRange(p) && p.fade == Falling ==> q.alpha <= p.alpha
    ensures InRange(p) && p.fade == Rising ==> q.alpha >= p.alpha
  {
    match p.fade
    case Falling =>
      if p.alpha - Step <= MinAlpha then Pulse(MinAlpha, Rising) else Pulse(p.alpha - Step, Falling)
    case Rising =>
      if p.alpha + Step >= MaxAlpha then Pulse(MaxAlpha, Falling) else Pulse(p.alpha + Step, Rising)
  }

  /** `n` consecutive steps. */
  function Iterate(p: Pulse, n: nat): Pulse
  {
    if n == 0 then p else StepPulse(Iterate(p, n - 1))
  }

  /** A bounded alpha stays bounded however many ticks pass. */
  lemma {:induction false} StaysInRange(p: Pulse, n: nat)
    requires InRange(p)
    ensures InRange(Iterate(p, n))
  {
    if n > 0 {
      StaysInRange(p, n - 1);
    }
  }

  /**
   * The 28 states of the steady wave: Rising at 0.30..0.95 and Falling at
   * 1.00..0.35, on the 0.05 grid.
   */
  ghost predicate OnWave(p: Pulse)
  {
    && p.alpha % Step == 0
    && (match p.fade
        case Rising => MinAlpha <= p.alpha < MaxAlpha
        case Falling => MinAlpha < p.alpha <= MaxAlpha)
  }

  /** Position within the wave, counting ticks from (0.30, Rising). */
  ghost function Phase(p: Pulse): (k: nat)
    requires OnWave(p)
    ensures k < WavePeriod
  {
    match p.fade
    case Rising => (p.alpha - MinAlpha) / Step
    case Falling => WavePeriod / 2 + (MaxAlpha - p.alpha) / Step
  }

  lemma StepAdvancesPhase(p: Pulse)
    requires OnWave(p)
    ensures OnWave(StepPulse(p))
    ensures Phase(StepPulse(p)) == (Phase(p) + 1) % WavePeriod
  {
    var q := StepPulse(p);
    var k := p.alpha / Step;
    assert p.alpha == Step * k;
    match p.fade
    case Rising =>
      DivStepExact(p.alpha - MinAlpha, k - 6);
      if p.alpha + Step >= MaxAlpha {
        assert p.alpha == 95 && q == Pulse(MaxAlpha, Falling);
      } else {
        DivStepExact(q.alpha, k + 1);
        DivStepExact(q.alpha - MinAlpha, k - 5);
      }
    case Falling =>
      DivStepExact(MaxAlpha - p.alpha, 20 - k);
      if p.alpha - Step <= MinAlpha {
        assert p.alpha == 35 && q == Pulse(MinAlpha, Rising);
      } else {
        DivStepExact(q.alpha, k - 1);
        DivStepExact(MaxAlpha - q.alpha, 21 - k);
      }
  }

  lemma DivStepExact(n: int, q: int)
    requires n == Step * q
    ensures n / Step == q && n % Step == 0
  {
  }

  lemma PhaseDetermines(p: Pulse, q: Pulse)
    requires OnWave(p) && OnWave(q)
    requires Phase(p) == Phase(q)
    ensures p == q
  {
  }

  lemma ModSucc(a: nat)
    ensures (a % WavePeriod + 1) % WavePeriod == (a + 1) % WavePeriod
  {
    var q := a / WavePeriod;
    var r := a % WavePeriod;
    assert a == WavePeriod * q + r;
    if r + 1 == WavePeriod {
      assert a + 1 == WavePeriod * (q + 1);
    } else {
      assert a + 1 == WavePeriod * q + (r + 1);
    }
  }

  lemma {:induction false} IteratePhase(p: Pulse, n: nat)
    requires OnWave(p)
    ensures OnWave(Iterate(p, n))
    ensures Phase(Iterate(p, n)) == (Phase(p) + n) % WavePeriod
  {
    if n > 0 {
      var prev := Iterate(p, n - 1);
      IteratePhase(p, n - 1);
      StepAdvancesPhase(prev);
      ModSucc(Phase(p) + n - 1);
      assert Phase(StepPulse(prev)) == ((Phase(p) + n - 1) % WavePeriod + 1) % WavePeriod;
    }
  }

  lemma ModShift(a: nat, n: nat)
    requires a < WavePeriod
    ensures (a + n) % WavePeriod == a <==> n % WavePeriod == 0
  {
    var q, r := n / WavePeriod, n % WavePeriod;
    assert a + n == WavePeriod * q + (a + r);
    if a + r < WavePeriod {
      assert (a + n) % WavePeriod == a + r;
    } else {
      assert a + n == WavePeriod * (q + 1) + (a + r - WavePeriod);
      assert (a + n) % WavePeriod == a + r - WavePeriod;
    }
  }

  /** On the wave, a state recurs after exactly the multiples of 28 ticks. */
  lemma WaveIsPeriodic(p: Pulse, n: nat)
    requires OnWave(p)
    ensures Iterate(p, n) == p <==> n % WavePeriod == 0
  {
    IteratePhase(p, n);
    ModShift(Phase(p), n);
    if n % WavePeriod == 0 {
      PhaseDetermines(Iterate(p, n), p);
    }
  }

  /** The first `pulse()` run by `__init__` moves 0.80 Falling to 0.75 Falling, a state on the wave. */
  lemma FirstPulse()
    ensures StepPulse(InitialPulse) == Pulse(75, Falling)
    ensures OnWave(StepPulse(InitialPulse))
  {
  }

  /** The alpha byte of any bounded state lies between 76 (for 0.30) and 255 (for 1.00). */
  lemma AlphaByteBounds(p: Pulse)
    requires InRange(p)
    ensures 76 <= AlphaByte(AlphaFraction(p)) <= 255
  {
    AlphaByteMonotonic(0.3, AlphaFraction(p));
    assert AlphaByte(0.3) == 76;
  }

  // ---------------------------------------------------------------------
  // Geometry

  datatype Rect = Rect(left: int, top: int, right: int, bottom: int)

  /** What the window can learn about the screen: the work area when the query succeeds, and the screen size. */
  datatype Screen = Screen(workArea: Option<Rect>, width: int, height: int)

  /** Window edge length and position, and the oval drawn on its canvas with its fill colour. */
  datatype Geometry = Geometry(size: int, x: int, y: int, oval: Rect, fill: string)

  /**
   * Bottom-right placement with an 8-pixel margin, against the work area
   * or, when that query fails, against the full screen size.
   */
  function InitialGeometry(screen: Screen): (g: Geometry)
    ensures g.size == Size
    ensures screen.workArea.Some? ==>
              g.x + Size + Margin == screen.workArea.value.right && g.y + Size + Margin == screen.workArea.value.bottom
    ensures screen.workArea.None? ==>
              g.x + Size + Margin == screen.width && g.y + Size + Margin == screen.height
    ensures g.oval.left == Padding && g.oval.top == Padding
    ensures g.oval.right == g.size - Padding && g.oval.bottom == g.size - Padding
    ensures g.fill == DotColor
  {
    var right := if screen.workArea.Some? then screen.workArea.value.right else screen.width;
    var bottom := if screen.workArea.Some? then screen.workArea.value.bottom else screen.height;
    Geometry(Size, right - Size - Margin, bottom - Size - Margin, Rect(Padding, Padding, Size - Padding, Size - Padding), DotColor)
  }

  // ---------------------------------------------------------------------
  // Handlers

  datatype Overlay = Overlay(geometry: Geometry, pulse: Pulse, visible: bool)

  /** The two callbacks the window schedules with `after`. */
  datatype Callback = PulseTick | ApplyStyles

  datatype Timer = Timer(delayMs: nat, callback: Callback)

  /** What the OS reports when asked: the platform, `winfo_id()`, and `GetWindowLongW`'s extended style. */
  datatype Native = Native(platform: Platform, hwnd: int, exStyle: bv32)

  /** The outcome of one handler: the new window state, the native calls made, the timers scheduled. */
  datatype Reaction = Reaction(overlay: Overlay, calls: seq<NativeCall>, timers: seq<Timer>)

  /** The COLORREF of the background colour "#000001": blue 1, so 0x010000. */
  lemma BackgroundColorKey()
    ensures ParseColorKey(BackgroundColor) == Some(Rgb(0, 0, 1))
    ensures ColorRef(Rgb(0, 0, 1)) == 0x1_0000
  {
    assert Slice(BackgroundColor, 1, 3) == "00";
    assert Slice(BackgroundColor, 3, 5) == "00";
    assert Slice(BackgroundColor, 5, 7) == "01";
  }

  /**
   * `apply_window_styles`: make the window click-through, then set the
   * colour key and the current alpha. Window state is not touched.
   */
  function ApplyWindowStyles(o: Overlay, n: Native): (r: Reaction)
    ensures r.overlay == o && r.timers == []
    ensures n.platform == Windows ==>
              r.calls == [SetWindowLong(n.hwnd, GWL_EXSTYLE, ClickThroughStyle(n.exStyle)),
                          SetLayeredWindowAttributes(n.hwnd, 0x1_0000, AlphaByte(AlphaFraction(o.pulse)), LWA_COLORKEY | LWA_ALPHA)]
    ensures n.platform != Windows ==> r.calls == []
  {
    BackgroundColorKey();
    Reaction(o, SetClickThrough(n.platform, n.hwnd, n.exStyle)
                + SetLayeredAttributes(n.platform, n.hwnd, BackgroundColor, AlphaFraction(o.pulse)), [])
  }

  /**
   * `pulse`: advance the wave, re-send the colour key with the new alpha
   * (any failure is swallowed), and reschedule after 50 ms whatever the
   * state, visible or not.
   */
  function Tick(o: Overlay, n: Native): (r: Reaction)
    ensures r.overlay == o.(pulse := StepPulse(o.pulse))
    ensures r.timers == [Timer(PulseDelayMs, PulseTick)]
    ensures r.calls != [] <==> n.platform == Windows
    ensures |r.calls| <= 1
    ensures forall c :: c in r.calls ==>
              c == SetLayeredWindowAttributes(n.hwnd, 0x1_0000, AlphaByte(AlphaFraction(r.overlay.pulse)), LWA_COLORKEY | LWA_ALPHA)
  {
    BackgroundColorKey();
    var p := StepPulse(o.pulse);
    Reaction(o.(pulse := p), SetLayeredAttributes(n.platform, n.hwnd, BackgroundColor, AlphaFraction(p)),
             [Timer(PulseDelayMs, PulseTick)])
  }

  /** `show`: deiconify, and re-apply the styles 10 ms later. */
  function Show(o: Overlay): (r: Reaction)
    ensures r.overlay.visible
    ensures r.overlay.geometry == o.geometry && r.overlay.pulse == o.pulse
    ensures r.calls == []
    ensures r.timers == [Timer(ShowDelayMs, ApplyStyles)]
  {
    Reaction(o.(visible := true), [], [Timer(ShowDelayMs, ApplyStyles)])
  }

  /** `hide`: withdraw; nothing else. */
  function Hide(o: Overlay): (r: Reaction)
    ensures !r.overlay.visible
    ensures r.overlay.geometry == o.geometry && r.overlay.pulse == o.pulse
    ensures r.calls == [] && r.timers == []
  {
    Reaction(o.(visible := false), [], [])
  }

  /** Showing or hiding does not change what the next tick does to the pulse, nor what it sends or schedules. */
  lemma VisibilityIndependentOfPulse(o: Overlay, n: Native)
    ensures Tick(Show(o).overlay, n).overlay.pulse == Tick(o, n).overlay.pulse
    ensures Tick(Hide(o).overlay, n).overlay.pulse == Tick(o, n).overlay.pulse
    ensures Tick(Show(o).overlay, n).calls == Tick(o, n).calls
    ensures Tick(Hide(o).overlay, n).calls == Tick(o, n).calls
    ensures Tick(Show(o).overlay, n).timers == Tick(o, n).timers
    ensures Tick(Hide(o).overlay, n).timers == Tick(o, n).timers
  {
  }

  /**
   * `__init__`: place the window, draw the inset oval, set the animation
   * state to 0.80 Falling and visible, then run the first `pulse()`.
   */
  function Create(screen: Screen, n: Native): (r: Reaction)
    ensures r.overlay.geometry == InitialGeometry(screen)
    ensures r.overlay.pulse == StepPulse(InitialPulse)
    ensures r.overlay.visible
    ensures r.timers == [Timer(PulseDelayMs, PulseTick)]
  {
    Tick(Overlay(InitialGeometry(screen), InitialPulse, true), n)
  }

  /** Run one scheduled callback. */
  function Handle(o: Overlay, cb: Callback, n: Native): Reaction
  {
    match cb
    case PulseTick => Tick(o, n)
    case ApplyStyles => ApplyWindowStyles(o, n)
  }

  // ---------------------------------------------------------------------
  // The Tk event loop driving the handlers

  /** The window state, the timers not yet fired, and every native call made so far. */
  datatype Loop = Loop(overlay: Overlay, pending: seq<Timer>, log: seq<NativeCall>)

  /**
   * What can happen next on the GUI thread: a pending timer fires (any
   * one, since the model does not track elapsed time), the tray asks for
   * show or hide, or the OS maps the window (the `<Map>` binding).
   */
  datatype Event = Fire(index: nat) | ShowCommand | HideCommand | Mapped

  function Absorb(l: Loop, r: Reaction, rest: seq<Timer>): Loop
  {
    Loop(r.overlay, rest + r.timers, l.log + r.calls)
  }

  function Dispatch(l: Loop, e: Event, n: Native): Loop
  {
    match e
    case Fire(i) =>
      if i < |l.pending| then Absorb(l, Handle(l.overlay, l.pending[i].callback, n), l.pending[..i] + l.pending[i + 1..])
      else l
    case ShowCommand => Absorb(l, Show(l.overlay), l.pending)
    case HideCommand => Absorb(l, Hide(l.overlay), l.pending)
    case Mapped => Absorb(l, ApplyWindowStyles(l.overlay, n), l.pending)
  }

  function Run(l: Loop, events: seq<Event>, n: Native): Loop
    decreases |events|
  {
    if events == [] then l else Run(Dispatch(l, events[0], n), events[1..], n)
  }

  /** The loop right after `__init__` returned. */
  function Start(screen: Screen, n: Native): (l: Loop)
    ensures l.overlay.geometry == InitialGeometry(screen)
  {
    var r := Create(screen, n);
    Loop(r.overlay, r.timers, r.calls)
  }

  function CountPulseTimers(ts: seq<Timer>): nat
  {
    if ts == [] then 0 else (if ts[0].callback == PulseTick then 1 else 0) + CountPulseTimers(ts[1..])
  }

  lemma {:induction false} CountConcat(a: seq<Timer>, b: seq<Timer>)
    ensures CountPulseTimers(a + b) == CountPulseTimers(a) + CountPulseTimers(b)
  {
    if a == [] {
      assert a + b == b;
    } else {
      assert (a + b)[0] == a[0];
      assert (a + b)[1..] == a[1..] + b;
      CountConcat(a[1..], b);
    }
  }

  lemma CountRemove(ts: seq<Timer>, i: nat)
    requires i < |ts|
    ensures CountPulseTimers(ts) ==
            CountPulseTimers(ts[..i] + ts[i + 1..]) + (if ts[i].callback == PulseTick then 1 else 0)
  {
    var pre, mid, post := ts[..i], [ts[i]], ts[i + 1..];
    assert ts == pre + (mid + post);
    CountConcat(pre, mid + post);
    CountConcat(mid, post);
    CountConcat(pre, post);
    assert mid[1..] == [];
    assert CountPulseTimers(mid) == (if ts[i].callback == PulseTick then 1 else 0);
  }

  /**
   * The loop's invariant: exactly one pulse timer is pending, the wave is
   * in its steady cycle, and the geometry is the one it started with.
   */
  ghost predicate Invariant(l: Loop, g: Geometry)
  {
    CountPulseTimers(l.pending) == 1 && OnWave(l.overlay.pulse) && l.overlay.geometry == g
  }

  lemma DispatchKeepsInvariant(l: Loop, e: Event, n: Native, g: Geometry)
    requires Invariant(l, g)
    ensures Invariant(Dispatch(l, e, n), g)
  {
    match e
    case Fire(i) =>
      if i < |l.pending| {
        var rest := l.pending[..i] + l.pending[i + 1..];
        var r := Handle(l.overlay, l.pending[i].callback, n);
        CountRemove(l.pending, i);
        CountConcat(rest, r.timers);
        if l.pending[i].callback == PulseTick {
          StepAdvancesPhase(l.overlay.pulse);
        }
      }
    case ShowCommand =>
      CountConcat(l.pending, Show(l.overlay).timers);
    case HideCommand =>
      CountConcat(l.pending, Hide(l.overlay).timers);
    case Mapped =>
      CountConcat(l.pending, ApplyWindowStyles(l.overlay, n).timers);
  }

  lemma {:induction false} RunKeepsInvariant(l: Loop, events: seq<Event>, n: Native, g: Geometry)
    requires Invariant(l, g)
    ensures Invariant(Run(l, events, n), g)
    decreases |events|
  {
    if events != [] {
      DispatchKeepsInvariant(l, events[0], n, g);
      RunKeepsInvariant(Dispatch(l, events[0], n), events[1..], n, g);
    }
  }

  /**
   * Whatever the tray commands and however the timers interleave, the
   * pulse timer is never lost or duplicated (hiding does not stop it), the
   * alpha stays on the 0.30..1.00 wave, and the window keeps its initial
   * geometry.
   */
  lemma PulseRunsForever(screen: Screen, events: seq<Event>, n: Native)
    ensures var l := Run(Start(screen, n), events, n);
            && CountPulseTimers(l.pending) == 1
            && InRange(l.overlay.pulse)
            && l.overlay.geometry == InitialGeometry(screen)
  {
    FirstPulse();
    var l0 := Start(screen, n);
    assert CountPulseTimers(l0.pending) == 1;
    RunKeepsInvariant(l0, events, n, InitialGeometry(screen));
  }
}

=== FILE: i18n.dfy ===
/**
 * Localised UI strings (`i18n`): two string tables, a current language,
 * and a lookup with a two-tier fallback (current language, then English,
 * then the key itself).
 *
 * The module-level globals of i18n.py (`_current_lang`,
 * `_config_manager`) become the explicit state record `Localizer`. The
 * module holds a reference to the `ConfigManager` passed to `init`,
 * which its caller may share with other components, so the store is not
 * copied into that record: every operation that reads or
 * writes it takes the current `Store` and returns the updated one. The
 * operating system's answer to the default-locale query is a parameter.
 */
module I18n {
  import opened Wrappers
  import ConfigStore

  /** Supported language codes and their display names. */
  const Languages: map<string, string> := map["en" := "English", "zh" := "中文"]

  const English: map<string, string> := map[
    "tray.show" := "Show",
    "tray.hide" := "Hide",
    "tray.move_enable" := "Enable Move Mode",
    "tray.move_disable" := "Disable Move Mode",
    "tray.settings" := "Settings",
    "tray.about" := "About",
    "tray.exit" := "Exit",
    "settings.title" := "Settings",
    "settings.appearance" := "APPEARANCE",
    "settings.dot_color" := "Dot Color",
    "settings.size" := "Size",
    "settings.max_opacity" := "Max Opacity",
    "settings.behavior" := "BEHAVIOR",
    "settings.pulse_speed" := "Pulse Speed",
    "settings.always_on_top" := "Always on Top",
    "settings.position" := "Position",
    "settings.reset_default" := "Reset to Default Position",
    "settings.reset_bottom_right" := "Reset to Bottom Right (Default)",
    "settings.reset_pending" := "Position Reset Pending",
    "settings.restore_defaults" := "Restore Defaults",
    "settings.save" := "Save",
    "settings.cancel" := "Cancel",
    "settings.language" := "Language",
    "settings.auto_start" := "Start with Windows",
    "settings.auto_start_manage" := "Manage in Windows Settings →",
    "about.title" := "About",
    "about.app_name" := "RDP Heartbeat",
    "about.description" := "A visual heartbeat to detect\nsilent RDP freezes and connection drops.",
    "about.visit_website" := "Visit Project Website",
    "about.close" := "Close"
  ]

  const Chinese: map<string, string> := map[
    "tray.show" := "显示",
    "tray.hide" := "隐藏",
    "tray.move_enable" := "拖动模式",
    "tray.move_disable" := "锁定位置",
    "tray.settings" := "设置",
    "tray.about" := "关于",
    "tray.exit" := "退出",
    "settings.title" := "设置",
    "settings.appearance" := "外观",
    "settings.dot_color" := "光点颜色",
    "settings.size" := "大小",
    "settings.max_opacity" := "最大不透明度",
    "settings.behavior" := "行为",
    "settings.pulse_speed" := "脉冲速度",
    "settings.always_on_top" := "始终置顶",
    "settings.position" := "位置",
    "settings.reset_default" := "重置到默认位置",
    "settings.reset_bottom_right" := "重置到右下角（默认）",
    "settings.reset_pending" := "位置重置待生效",
    "settings.restore_defaults" := "恢复默认",
    "settings.save" := "保存",
    "settings.cancel" := "取消",
    "settings.language" := "语言",
    "settings.auto_start" := "开机自启动",
    "settings.auto_start_manage" := "在 Windows 设置中管理 →",
    "about.title" := "关于",
    "about.app_name" := "RDP Heartbeat",
    "about.description" := "用于检测远程桌面\n连接中断的可视化心跳工具。",
    "about.visit_website" := "访问项目网站",
    "about.close" := "关闭"
  ]

  /** String tables by language code. */
  const Strings: map<string, map<string, string>> := map["en" := English, "zh" := Chinese]

  /** The persisted value meaning "follow the system locale". */
  const Auto := "auto"

  /** The config key the language choice is stored under. */
  const LanguageKey := "language"

  /**
   * The outcome of asking the OS for its default locale: the query raised,
   * or it returned a locale code that may be `None`.
   */
  datatype LocaleQuery = QueryFailed | Locale(code: Option<string>)

  /**
   * The localisation context that replaces the module globals: the current
   * language, and whether `init` has attached the shared store.
   */
  datatype Localizer = Localizer(current: string, attached: bool)

  /** The state before `init` runs: English, no store attached. */
  const Initial := Localizer("en", false)

  /** The current language is always one that has an entry in `Languages`. */
  ghost predicate Valid(l: Localizer)
  {
    l.current in Languages
  }

  /**
   * `_detect_system_language`: Chinese exactly when the locale code is a
   * non-empty string starting with "zh"; English otherwise, including when
   * the query fails or gives no code.
   */
  function DetectSystemLanguage(q: LocaleQuery): (lang: string)
    ensures lang in Languages
    ensures lang == "zh" <==> q.Locale? && q.code.Some? && |q.code.value| > 0 && "zh" <= q.code.value
    ensures lang != "zh" ==> lang == "en"
  {
    match q
    case Locale(Some(code)) => if |code| > 0 && "zh" <= code then "zh" else "en"
    case _ => "en"
  }

  /** True when a configured value names a supported language (`lang in LANGUAGES`). */
  predicate IsLanguageCode(v: ConfigStore.Value)
  {
    v.Str? && v.s in Languages
  }

  /**
   * `init`: attach the store and pick the language it configures; "auto",
   * an absent value and anything that is not a supported code all resolve
   * to the detected system language.
   */
  function Init(store: ConfigStore.Store, q: LocaleQuery): (r: Localizer)
    ensures Valid(r)
    ensures r.attached
    ensures var lang := ConfigStore.Get(store, LanguageKey);
            if lang == ConfigStore.Str(Auto) || !IsLanguageCode(lang)
            then r.current == DetectSystemLanguage(q)
            else r.current == lang.s
  {
    var lang := ConfigStore.Get(store, LanguageKey);
    var current := if lang == ConfigStore.Str(Auto) || !IsLanguageCode(lang) then DetectSystemLanguage(q) else lang.s;
    Localizer(current, true)
  }

  /**
   * `t`: look `key` up in the current language's table (English when that
   * language has none), falling back to English and then to the key.
   */
  function Translate(l: Localizer, key: string): (text: string)
    ensures l.current in Strings && key in Strings[l.current] ==> text == Strings[l.current][key]
    ensures (l.current !in Strings || key !in Strings[l.current]) && key in English ==> text == English[key]
    ensures (l.current !in Strings || key !in Strings[l.current]) && key !in English ==> text == key
  {
    var table := if l.current in Strings then Strings[l.current] else English;
    if key in table then table[key]
    else if key in English then English[key]
    else key
  }

  /** `get_language`: the current language code. */
  function GetLanguage(l: Localizer): (code: string)
    ensures code == l.current
    ensures Valid(l) ==> code in Languages
  {
    l.current
  }

  /** The localizer and the shared store after `set_language`. */
  datatype Switched = Switched(localizer: Localizer, store: ConfigStore.Store)

  /**
   * `set_language`: ignore anything other than a supported code or "auto";
   * otherwise switch (to the detected language for "auto") and, when a
   * store is attached, persist the argument itself through the shared
   * store `s`.
   */
  function SetLanguage(l: Localizer, lang: string, q: LocaleQuery, s: ConfigStore.Store, writable: bool): (r: Switched)
    ensures !(lang in Languages || lang == Auto) ==> r.localizer == l && r.store == s
    ensures lang == Auto ==> r.localizer.current == DetectSystemLanguage(q)
    ensures lang in Languages ==> r.localizer.current == lang
    ensures r.localizer.attached == l.attached
    ensures !l.attached ==> r.store == s
    ensures (lang in Languages || lang == Auto) && l.attached ==>
              r.store == ConfigStore.Set(s, LanguageKey, ConfigStore.Str(lang), writable)
    ensures Valid(l) ==> Valid(r.localizer)
  {
    if lang in Languages || lang == Auto then
      var current := if lang != Auto then lang else DetectSystemLanguage(q);
      var store := if l.attached then ConfigStore.Set(s, LanguageKey, ConfigStore.Str(lang), writable) else s;
      Switched(Localizer(current, l.attached), store)
    else
      Switched(l, s)
  }

  /** `get_language` after `set_language` reports the language just chosen; a rejected argument changes nothing. */
  lemma SetThenGetLanguage(l: Localizer, lang: string, q: LocaleQuery, s: ConfigStore.Store, writable: bool)
    ensures lang in Languages ==> GetLanguage(SetLanguage(l, lang, q, s, writable).localizer) == lang
    ensures lang == Auto ==> GetLanguage(SetLanguage(l, lang, q, s, writable).localizer) == DetectSystemLanguage(q)
    ensures !(lang in Languages || lang == Auto) ==>
              GetLanguage(SetLanguage(l, lang, q, s, writable).localizer) == GetLanguage(l)
  {
  }

  /** Both tables cover the same keys, so a known key never falls back to English. */
  lemma TablesCoverSameKeys()
    ensures Chinese.Keys == English.Keys
  {
  }

  /**
   * In every valid state `t` is answered from the current language's table
   * for a known key, and is the key itself for an unknown one.
   */
  lemma TranslateFallback(l: Localizer, key: string)
    requires Valid(l)
    ensures key in English ==> Translate(l, key) == Strings[l.current][key]
    ensures key !in English ==> Translate(l, key) == key
  {
    TablesCoverSameKeys();
  }

  /**
   * The calls the rest of the program makes: into this module, and
   * writes of its own to the shared store.
   */
  datatype Call =
    | InitCall(q: LocaleQuery)
    | SetLanguageCall(lang: string, q: LocaleQuery, writable: bool)
    | StoreWrite(key: string, value: ConfigStore.Value, writable: bool)

  /** The localizer together with the one store the whole program shares. */
  datatype World = World(localizer: Localizer, store: ConfigStore.Store)

  function Apply(w: World, c: Call): World
  {
    match c
    case InitCall(q) => w.(localizer := Init(w.store, q))
    case SetLanguageCall(lang, q, writable) =>
      var r := SetLanguage(w.localizer, lang, q, w.store, writable);
      World(r.localizer, r.store)
    case StoreWrite(key, value, writable) => w.(store := ConfigStore.Set(w.store, key, value, writable))
  }

  function Run(w: World, calls: seq<Call>): World
    decreases |calls|
  {
    if calls == [] then w else Run(Apply(w, calls[0]), calls[1..])
  }

  /** Whatever sequence of calls is made, the current language stays a supported one. */
  lemma {:induction false} CurrentAlwaysSupported(store: ConfigStore.Store, calls: seq<Call>)
    ensures Valid(Run(World(Initial, store), calls).localizer)
  {
    RunKeepsValid(World(Initial, store), calls);
  }

  lemma {:induction false} RunKeepsValid(w: World, calls: seq<Call>)
    requires Valid(w.localizer)
    ensures Valid(Run(w, calls).localizer)
    decreases |calls|
  {
    if calls != [] {
      RunKeepsValid(Apply(w, calls[0]), calls[1..]);
    }
  }

  /**
   * A value another part of the program wrote to the shared store before
   * `set_language` is still there afterwards, in memory and, once saved,
   * in the file: the language write goes to the live map.
   */
  lemma SharedWritesSurvive(w: World, key: string, value: ConfigStore.Value, lang: string, q: LocaleQuery)
    requires key != LanguageKey
    ensures var r := Run(w, [StoreWrite(key, value, true), SetLanguageCall(lang, q, true)]);
            && ConfigStore.Get(r.store, key) == value
            && (r.store.file.Stored? ==> key in r.store.file.contents && r.store.file.contents[key] == value)
  {
    var w1 := Apply(w, StoreWrite(key, value, true));
    var w2 := Apply(w1, SetLanguageCall(lang, q, true));
    assert [StoreWrite(key, value, true), SetLanguageCall(lang, q, true)][1..] == [SetLanguageCall(lang, q, true)];
    assert Run(w, [StoreWrite(key, value, true), SetLanguageCall(lang, q, true)]) == Run(w1, [SetLanguageCall(lang, q, true)]);
    assert Run(w1, [SetLanguageCall(lang, q, true)]) == w2;
  }

  /**
   * A language persisted by `set_language` is what `init` picks again on a
   * store reopened from the file that was written.
   */
  lemma SetLanguageThenReopen(l: Localizer, code: string, q: LocaleQuery, q': LocaleQuery, s: ConfigStore.Store, writable: bool)
    requires l.attached
    requires code in Languages
    ensures var r := SetLanguage(l, code, q, s, true);
            Init(ConfigStore.Open(r.store.file, writable), q').current == code
  {
    ConfigStore.SetThenReopen(s, LanguageKey, ConfigStore.Str(code), writable);
  }

  /** "auto" persisted by `set_language` makes a later `init` detect the locale again. */
  lemma SetAutoThenReopen(l: Localizer, q: LocaleQuery, q': LocaleQuery, s: ConfigStore.Store, writable: bool)
    requires l.attached
    ensures var r := SetLanguage(l, Auto, q, s, true);
            Init(ConfigStore.Open(r.store.file, writable), q').current == DetectSystemLanguage(q')
  {
    ConfigStore.SetThenReopen(s, LanguageKey, ConfigStore.Str(Auto), writable);
  }
}

=== FILE: settings_dialog.dfy ===
/**
 * The logic of the settings dialog (`SettingsDialog`), without widgets:
 * the form fields it fills from the store, the edits the user can make,
 * and the store writes that Save turns them into. Cancel and the title-bar
 * close button both end the dialog without writing.
 *
 * A Tk variable is modelled as holding the configuration value it was
 * given; the opacity field holds the integer percentage the dialog derives
 * from `opacity_max`.
 */
module Settings {
  import opened Wrappers
  import opened ConfigStore
  import WinUtils

  const LabelDefaultCorner := "Reset to Center (Default)"
  const LabelCustomPosition := "Reset to Default Position"
  const LabelResetPending := "Position Reset Pending"

  /** The keys Save always writes. */
  const FieldKeys: set<string> := {"dot_color", "dot_size", "opacity_max", "pulse_speed_ms", "always_on_top"}

  /** The keys Save clears when a position reset was requested. */
  const PositionKeys: set<string> := {"window_x", "window_y"}

  /**
   * The seven dialog keys are pairwise distinct: the five field keys have
   * different lengths, and the position keys start with 'w' where no
   * field key does.
   */
  lemma KeysDistinct()
    ensures |"dot_color"| == 9 && |"dot_size"| == 8 && |"opacity_max"| == 11
    ensures |"pulse_speed_ms"| == 14 && |"always_on_top"| == 13
    ensures "window_x" != "window_y"
    ensures forall k :: k in FieldKeys ==> k != "window_x" && k != "window_y"
    ensures FieldKeys !! PositionKeys
  {
    assert forall k :: k in PositionKeys ==> |k| == 8 && k[0] == 'w';
    assert forall k :: k in FieldKeys ==> |k| == 0 || k[0] != 'w';
    assert "window_x"[7] != "window_y"[7];
  }

  datatype Dialog = Dialog(
    color: Value,
    size: Value,
    opacityPercent: int,
    speed: Value,
    top: Value,
    resetRequested: bool,
    positionLabel: string)

  /**
   * `int(opacity_max * 100)`: truncation of the percentage for a number
   * (a boolean counts as 0 or 1); `None` where Python raises `TypeError`
   * or `ValueError`, which aborts opening the dialog.
   */
  function OpacityPercent(v: Value): (pct: Option<int>)
    ensures pct.Some? <==> v.Real? || v.Int? || v.Bool?
    ensures v.Real? ==> pct.value == WinUtils.Trunc(v.r * 100.0)
    ensures v.Int? ==> pct.value == v.i * 100
    ensures v.Bool? ==> pct.value == (if v.b then 100 else 0)
    ensures v.Real? && 0.0 <= v.r ==> pct.value as real <= v.r * 100.0 < pct.value as real + 1.0
  {
    match v
    case Real(x) => Some(WinUtils.Trunc(x * 100.0))
    case Int(i) => Some(i * 100)
    case Bool(b) => Some(if b then 100 else 0)
    case _ => None
  }

  /**
   * Whether a Tk `IntVar` given `v` can be read back: integers, floats
   * and booleans can, and `None` leaves the variable at its default.
   * A string makes `get()` raise `TclError`.
   */
  predicate TkReadable(v: Value)
  {
    !v.Str?
  }

  /**
   * Whether a Tk `BooleanVar` can be built on `v`: its constructor passes
   * the value through `getboolean`, which accepts integers and booleans,
   * raises `TypeError` for a float and `TclError` for a string; `None`
   * leaves the variable at its default.
   */
  predicate BoolVarReadable(v: Value)
  {
    !v.Str? && !v.Real?
  }

  /** The position button's text: it names a custom position exactly when `window_x` is set. */
  function PositionLabel(s: Store): (text: string)
    ensures text == LabelCustomPosition <==> Get(s, "window_x") != Null
    ensures text != LabelCustomPosition ==> text == LabelDefaultCorner
  {
    if Get(s, "window_x") != Null then LabelCustomPosition else LabelDefaultCorner
  }

  /**
   * `__init__`: fill the fields from the store, with no reset requested;
   * `None` when `opacity_max` cannot be turned into a percentage, or when
   * the size, speed or topmost variable cannot be read back by the widgets
   * built on it.
   */
  function Open(s: Store): (d: Option<Dialog>)
    ensures d.Some? <==>
              && OpacityPercent(Get(s, "opacity_max")).Some?
              && TkReadable(Get(s, "dot_size"))
              && TkReadable(Get(s, "pulse_speed_ms"))
              && BoolVarReadable(Get(s, "always_on_top"))
    ensures d.Some? ==>
              && d.value.color == Get(s, "dot_color")
              && d.value.size == Get(s, "dot_size")
              && d.value.opacityPercent == OpacityPercent(Get(s, "opacity_max")).value
              && d.value.speed == Get(s, "pulse_speed_ms")
              && d.value.top == Get(s, "always_on_top")
              && !d.value.resetRequested
              && (d.value.positionLabel == LabelCustomPosition <==> Get(s, "window_x") != Null)
  {
    match OpacityPercent(Get(s, "opacity_max"))
    case None => None
    case Some(pct) =>
      if !TkReadable(Get(s, "dot_size")) || !TkReadable(Get(s, "pulse_speed_ms")) || !BoolVarReadable(Get(s, "always_on_top"))
      then None
      else Some(Dialog(Get(s, "dot_color"), Get(s, "dot_size"), pct, Get(s, "pulse_speed_ms"),
                  Get(s, "always_on_top"), false, PositionLabel(s)))
  }

  /** `reset_position`: mark the reset as pending; nothing is written yet. */
  function ResetPosition(d: Dialog): (r: Dialog)
    ensures r.resetRequested && r.positionLabel == LabelResetPending
    ensures r.(resetRequested := d.resetRequested, positionLabel := d.positionLabel) == d
  {
    d.(resetRequested := true, positionLabel := LabelResetPending)
  }

  /**
   * `restore_defaults`: put the shipped defaults into the five fields;
   * the reset flag and the position label are left alone.
   */
  function RestoreDefaults(d: Dialog): (r: Dialog)
    ensures r.color == DefaultConfig["dot_color"] && r.size == DefaultConfig["dot_size"]
    ensures r.speed == DefaultConfig["pulse_speed_ms"] && r.top == DefaultConfig["always_on_top"]
    ensures Some(r.opacityPercent) == OpacityPercent(DefaultConfig["opacity_max"])
    ensures r.resetRequested == d.resetRequested && r.positionLabel == d.positionLabel
  {
    d.(color := DefaultConfig["dot_color"], size := DefaultConfig["dot_size"],
       opacityPercent := OpacityPercent(DefaultConfig["opacity_max"]).value,
       speed := DefaultConfig["pulse_speed_ms"], top := DefaultConfig["always_on_top"])
  }

  /** The percentage written back as a fraction, `percent / 100.0`. */
  function OpacityFraction(percent: int): (v: Value)
    ensures v.Real? && v.r * 100.0 == percent as real
  {
    Real(percent as real / 100.0)
  }

  /**
   * Whether the `i`-th of Save's file writes succeeds. Save writes the file
   * up to eight times (slots 0-4 for the five fields, 5 and 6 for the
   * position, 7 for the final `save`), and each write succeeds or fails on
   * its own; a slot beyond the sequence fails.
   */
  predicate Succeeds(saves: seq<bool>, i: nat)
  {
    i < |saves| && saves[i]
  }

  /** Every file write fails. */
  ghost predicate AllFail(saves: seq<bool>)
  {
    forall i :: 0 <= i < |saves| ==> !saves[i]
  }

  /** The five field writes Save always makes, each one saved by `set` (slots 0-4). */
  function WriteFields(d: Dialog, s: Store, saves: seq<bool>): (r: Store)
    ensures r.config == s.config["dot_color" := d.color]["dot_size" := d.size]
                                ["opacity_max" := OpacityFraction(d.opacityPercent)]
                                ["pulse_speed_ms" := d.speed]["always_on_top" := d.top]
    ensures Succeeds(saves, 4) ==> Persisted(r)
    ensures AllFail(saves) ==> r.file == s.file
  {
    var s1 := Set(s, "dot_color", d.color, Succeeds(saves, 0));
    var s2 := Set(s1, "dot_size", d.size, Succeeds(saves, 1));
    var s3 := Set(s2, "opacity_max", OpacityFraction(d.opacityPercent), Succeeds(saves, 2));
    var s4 := Set(s3, "pulse_speed_ms", d.speed, Succeeds(saves, 3));
    Set(s4, "always_on_top", d.top, Succeeds(saves, 4))
  }

  /** The two position writes made when a reset was requested (slots 5 and 6). */
  function ClearPosition(s: Store, saves: seq<bool>): (r: Store)
    ensures r.config == s.config["window_x" := Null]["window_y" := Null]
    ensures Succeeds(saves, 6) ==> Persisted(r)
    ensures AllFail(saves) ==> r.file == s.file
  {
    Set(Set(s, "window_x", Null, Succeeds(saves, 5)), "window_y", Null, Succeeds(saves, 6))
  }

  /** `a` and `b` agree about `k`: both lack it, or both map it to the same value. */
  ghost predicate Agrees(a: Config, b: Config, k: string)
  {
    (k in a <==> k in b) && (k in a ==> a[k] == b[k])
  }

  /**
   * `save_settings`: write the five fields; clear the saved position
   * exactly when a reset was requested; save once more. When that last
   * save succeeds the file holds the final map, whatever happened to the
   * earlier ones; when every write fails the file is untouched.
   */
  function SaveSettings(d: Dialog, s: Store, saves: seq<bool>): (r: Store)
    ensures FieldKeys <= r.config.Keys
    ensures Succeeds(saves, 7) ==> Persisted(r)
    ensures AllFail(saves) ==> r.file == s.file
  {
    var written := WriteFields(d, s, saves);
    var cleared := if d.resetRequested then ClearPosition(written, saves) else written;
    Save(cleared, Succeeds(saves, 7))
  }

  /**
   * The writes are not one transaction: when only the first succeeds, the
   * file is left with the new colour and every other value as before.
   */
  lemma PartialSave(d: Dialog, s: Store)
    ensures SaveSettings(d, s, [true, false, false, false, false, false, false, false]).file ==
            Stored(s.config["dot_color" := d.color])
  {
    var saves := [true, false, false, false, false, false, false, false];
    assert Succeeds(saves, 0);
    assert forall i :: 1 <= i <= 7 ==> !Succeeds(saves, i);
  }

  /**
   * What `get` reports after Save: the five field values, and for the
   * position `None` when a reset was requested and the earlier value when
   * it was not.
   */
  lemma SaveSettingsWrites(d: Dialog, s: Store, saves: seq<bool>)
    ensures var r := SaveSettings(d, s, saves);
            && Get(r, "dot_color") == d.color && Get(r, "dot_size") == d.size
            && Get(r, "opacity_max") == OpacityFraction(d.opacityPercent)
            && Get(r, "pulse_speed_ms") == d.speed && Get(r, "always_on_top") == d.top
            && (d.resetRequested ==> Get(r, "window_x") == Null && Get(r, "window_y") == Null)
            && (!d.resetRequested ==> Get(r, "window_x") == Get(s, "window_x") && Get(r, "window_y") == Get(s, "window_y"))
  {
    KeysDistinct();
    var written := WriteFields(d, s, saves);
    var r := SaveSettings(d, s, saves);
    if d.resetRequested {
      assert r.config == written.config["window_x" := Null]["window_y" := Null];
    } else {
      assert r.config == written.config;
    }
  }

  /** Save leaves every key outside the dialog's seven exactly as it was (`opacity_min`, `language`, ...). */
  lemma SaveSettingsKeepsOthers(d: Dialog, s: Store, saves: seq<bool>, k: string)
    requires k !in FieldKeys && k !in PositionKeys
    ensures Agrees(SaveSettings(d, s, saves).config, s.config, k)
  {
    var written := WriteFields(d, s, saves);
    assert Agrees(written.config, s.config, k);
  }

  /** Save cannot lose a default key. */
  lemma SaveSettingsKeepsDefaults(d: Dialog, s: Store, saves: seq<bool>)
    requires HasDefaults(s.config)
    ensures HasDefaults(SaveSettings(d, s, saves).config)
  {
    var written := WriteFields(d, s, saves);
    var r := SaveSettings(d, s, saves);
    assert s.config.Keys <= written.config.Keys;
    assert written.config.Keys <= r.config.Keys;
  }

  /** Restore Defaults followed by Save writes the shipped defaults for the five fields. */
  lemma RestoreThenSave(d: Dialog, s: Store, saves: seq<bool>)
    ensures var r := SaveSettings(RestoreDefaults(d), s, saves);
            && Get(r, "dot_color") == DefaultConfig["dot_color"]
            && Get(r, "dot_size") == DefaultConfig["dot_size"]
            && Get(r, "opacity_max") == DefaultConfig["opacity_max"]
            && Get(r, "pulse_speed_ms") == DefaultConfig["pulse_speed_ms"]
            && Get(r, "always_on_top") == DefaultConfig["always_on_top"]
  {
    var e := RestoreDefaults(d);
    assert e.opacityPercent == 100;
    assert OpacityFraction(100) == DefaultConfig["opacity_max"];
    SaveSettingsWrites(e, s, saves);
  }

  /**
   * Opening the dialog and saving at once writes back the colour, size,
   * speed and topmost values it read. The opacity is not claimed: Python's
   * float percentage round trip is not exact.
   */
  lemma OpenThenSave(s: Store, saves: seq<bool>)
    requires Open(s).Some?
    ensures var r := SaveSettings(Open(s).value, s, saves);
            && Get(r, "dot_color") == Get(s, "dot_color")
            && Get(r, "dot_size") == Get(s, "dot_size")
            && Get(r, "pulse_speed_ms") == Get(s, "pulse_speed_ms")
            && Get(r, "always_on_top") == Get(s, "always_on_top")
  {
    SaveSettingsWrites(Open(s).value, s, saves);
  }

  // ---------------------------------------------------------------------
  // A dialog session

  /** What the user can do with the open dialog. */
  datatype Action =
    | PickColor(choice: Option<string>)  // colour chooser; `None` when it was dismissed
    | SlideSize(px: int)
    | SlideOpacity(percent: int)
    | SlideSpeed(ms: int)
    | SwitchTop(on: bool)
    | ResetPositionButton
    | RestoreDefaultsButton
    | SaveButton
    | Quit  // Cancel, or the title bar's close button: `quit_app`

  datatype Session = Editing(dialog: Dialog, store: Store) | Closed(store: Store)

  /** Opening the dialog: a session, or nothing when `__init__` raises. */
  function Begin(s: Store): (sess: Session)
    ensures sess.store == s
  {
    match Open(s)
    case Some(d) => Editing(d, s)
    case None => Closed(s)
  }

  /**
   * Field edits: each changes its own field only. A dismissed or empty
   * colour choice keeps the colour, and only Reset Position sets the reset
   * flag, which nothing clears.
   */
  function Edit(d: Dialog, a: Action): (r: Dialog)
    ensures a.PickColor? && (a.choice.None? || a.choice.value == "") ==> r == d
    ensures a.PickColor? && a.choice.Some? && a.choice.value != "" ==>
              r.color == Str(a.choice.value) && r.(color := d.color) == d
    ensures a.SlideSize? ==> r.size == Int(a.px) && r.(size := d.size) == d
    ensures a.SlideOpacity? ==> r.opacityPercent == a.percent && r.(opacityPercent := d.opacityPercent) == d
    ensures a.SlideSpeed? ==> r.speed == Int(a.ms) && r.(speed := d.speed) == d
    ensures a.SwitchTop? ==> r.top == Bool(a.on) && r.(top := d.top) == d
    ensures a == ResetPositionButton ==> r == ResetPosition(d)
    ensures a == RestoreDefaultsButton ==> r == RestoreDefaults(d)
    ensures a == ResetPositionButton ==> r.resetRequested
    ensures a != ResetPositionButton ==> r.resetRequested == d.resetRequested
  {
    match a
    case PickColor(choice) => if choice.Some? && choice.value != "" then d.(color := Str(choice.value)) else d
    case SlideSize(px) => d.(size := Int(px))
    case SlideOpacity(percent) => d.(opacityPercent := percent)
    case SlideSpeed(ms) => d.(speed := Int(ms))
    case SwitchTop(on) => d.(top := Bool(on))
    case ResetPositionButton => ResetPosition(d)
    case RestoreDefaultsButton => RestoreDefaults(d)
    case _ => d
  }

  function Perform(sess: Session, a: Action, saves: seq<bool>): Session
  {
    match sess
    case Closed(_) => sess
    case Editing(d, s) =>
      match a
      case SaveButton => Closed(SaveSettings(d, s, saves))
      case Quit => Closed(s)
      case _ => Editing(Edit(d, a), s)
  }

  function RunSession(sess: Session, actions: seq<Action>, saves: seq<bool>): Session
    decreases |actions|
  {
    if actions == [] then sess else RunSession(Perform(sess, actions[0], saves), actions[1..], saves)
  }

  /**
   * Without Save, nothing the user does in the dialog, Restore Defaults and
   * Reset Position included, changes the store; Cancel or close leaves it
   * exactly as it was.
   */
  lemma {:induction false} WithoutSaveStoreUnchanged(sess: Session, actions: seq<Action>, saves: seq<bool>)
    requires forall i :: 0 <= i < |actions| ==> actions[i] != SaveButton
    ensures RunSession(sess, actions, saves).store == sess.store
    decreases |actions|
  {
    if actions != [] {
      WithoutSaveStoreUnchanged(Perform(sess, actions[0], saves), actions[1..], saves);
    }
  }

  /** Keys outside the dialog's seven are never touched by a session, whatever the user does. */
  lemma {:induction false} SessionKeepsOtherKeys(sess: Session, actions: seq<Action>, saves: seq<bool>, k: string)
    requires k !in FieldKeys && k !in PositionKeys
    ensures Agrees(RunSession(sess, actions, saves).store.config, sess.store.config, k)
    decreases |actions|
  {
    if actions != [] {
      if sess.Editing? && actions[0] == SaveButton {
        SaveSettingsKeepsOthers(sess.dialog, sess.store, saves, k);
      }
      SessionKeepsOtherKeys(Perform(sess, actions[0], saves), actions[1..], saves, k);
    }
  }

  /** A position is cleared by a session only if Reset Position was pressed before Save. */
  lemma {:induction false} PositionClearedOnlyOnReset(sess: Session, actions: seq<Action>, saves: seq<bool>)
    requires sess.Editing? && !sess.dialog.resetRequested
    requires forall i :: 0 <= i < |actions| ==> actions[i] != ResetPositionButton
    ensures var r := RunSession(sess, actions, saves).store;
            Get(r, "window_x") == Get(sess.store, "window_x") && Get(r, "window_y") == Get(sess.store, "window_y")
    decreases |actions|
  {
    if actions != [] {
      var next := Perform(sess, actions[0], saves);
      if next.Editing? {
        PositionClearedOnlyOnReset(next, actions[1..], saves);
      } else {
        if actions[0] == SaveButton {
          SaveSettingsWrites(sess.dialog, sess.store, saves);
        }
        ClosedStays(next, actions[1..], saves);
      }
    }
  }

  lemma {:induction false} ClosedStays(sess: Session, actions: seq<Action>, saves: seq<bool>)
    requires sess.Closed?
    ensures RunSession(sess, actions, saves) == sess
    decreases |actions|
  {
    if actions != [] {
      ClosedStays(sess, actions[1..], saves);
    }
  }
}

=== FILE: win_utils.dfy ===
/**
 * The Win32 helpers (`win_utils`): extended-style arithmetic for a
 * click-through window, the colour-key and alpha arguments of
 * `SetLayeredWindowAttributes`, and the single-instance mutex decision.
 *
 * A native call is not performed but recorded as a `NativeCall` value; a
 * helper returns the (possibly empty) sequence of calls it would make.
 * What the OS would answer (`GetWindowLongW`, `CreateMutexW`,
 * `GetLastError`) comes in as parameters.
 */
module WinUtils {
  import opened Wrappers

  /** `platform.system()`, reduced to the only distinction the helpers make. */
  datatype Platform = Windows | OtherPlatform

  const GWL_EXSTYLE: int := -20
  const WS_EX_LAYERED: bv32 := 0x0008_0000
  const WS_EX_TRANSPARENT: bv32 := 0x0000_0020
  const LWA_COLORKEY: bv32 := 0x0000_0001
  const LWA_ALPHA: bv32 := 0x0000_0002
  /** The code `GetLastError` reports after `CreateMutexW` opened a mutex that already existed (winerror.h: 0xB7). */
  const ERROR_ALREADY_EXISTS: int := 183
  /** The constant `create_single_instance_mutex` defines under that name and compares the last error with. */
  const CheckedAlreadyExists: int := 184

  /** The two extended-style bits click-through needs. */
  const ClickThroughBits: bv32 := WS_EX_LAYERED | WS_EX_TRANSPARENT

  /** A recorded user32 call; `SetLayeredWindowAttributes` takes a COLORREF and an alpha byte. */
  datatype NativeCall =
    | SetWindowLong(hwnd: int, index: int, style: bv32)
    | SetLayeredWindowAttributes(hwnd: int, colorKey: nat, alpha: int, flags: bv32)

  // ---------------------------------------------------------------------
  // Click-through

  /** A style with both click-through bits set. */
  predicate IsClickThrough(style: bv32)
  {
    style & ClickThroughBits == ClickThroughBits
  }

  /**
   * The extended style `set_click_through` writes: the current style with
   * the layered and transparent bits added. The 32-bit `LONG` is modelled
   * as its bit pattern, so a negative style read back by `GetWindowLongW`
   * is covered too.
   */
  function ClickThroughStyle(exStyle: bv32): (r: bv32)
    ensures IsClickThrough(r)
    ensures r & exStyle == exStyle
  {
    exStyle | WS_EX_LAYERED | WS_EX_TRANSPARENT
  }

  /** Outside the two click-through bits the new style is the old one. */
  lemma ClickThroughKeepsOtherBits(exStyle: bv32)
    ensures ClickThroughStyle(exStyle) & !ClickThroughBits == exStyle & !ClickThroughBits
  {
  }

  /** Applying the click-through style twice is applying it once. */
  lemma ClickThroughIdempotent(exStyle: bv32)
    ensures ClickThroughStyle(ClickThroughStyle(exStyle)) == ClickThroughStyle(exStyle)
  {
  }

  /** A style that is already click-through is left as it is. */
  lemma ClickThroughFixesClickThrough(exStyle: bv32)
    ensures IsClickThrough(exStyle) <==> ClickThroughStyle(exStyle) == exStyle
  {
  }

  /**
   * `set_click_through(hwnd)`: nothing off Windows; on Windows one
   * `SetWindowLongW(hwnd, GWL_EXSTYLE, …)` whose style keeps every bit of
   * `exStyle` (what `GetWindowLongW` returned) and adds the click-through bits.
   */
  function SetClickThrough(p: Platform, hwnd: int, exStyle: bv32): (calls: seq<NativeCall>)
    ensures calls != [] <==> p == Windows
    ensures |calls| <= 1
    ensures forall c :: c in calls ==>
              c.SetWindowLong? && c.hwnd == hwnd && c.index == GWL_EXSTYLE &&
              c.style == ClickThroughStyle(exStyle)
  {
    if p != Windows then [] else [SetWindowLong(hwnd, GWL_EXSTYLE, ClickThroughStyle(exStyle))]
  }

  // ---------------------------------------------------------------------
  // Colour key "#RRGGBB" -> COLORREF 0x00BBGGRR

  /** A value that fits in one byte. */
  type Byte = n: int | 0 <= n < 256

  datatype Rgb = Rgb(r: Byte, g: Byte, b: Byte)

  /** Python's `s[i:j]` for non-negative bounds: both ends clamp to the length. */
  function Slice(s: string, i: nat, j: nat): (r: string)
    requires i <= j
    ensures |r| == (if j <= |s| then j else |s|) - (if i <= |s| then i else |s|)
    ensures forall k :: 0 <= k < |r| ==> r[k] == s[i + k]
  {
    var hi := if j <= |s| then j else |s|;
    var lo := if i <= |s| then i else |s|;
    s[lo..hi]
  }

  predicate IsHexDigit(c: char)
  {
    ('0' <= c <= '9') || ('a' <= c <= 'f') || ('A' <= c <= 'F')
  }

  function DigitValue(c: char): (d: nat)
    requires IsHexDigit(c)
    ensures d < 16
  {
    if '0' <= c <= '9' then c as int - '0' as int
    else if 'a' <= c <= 'f' then c as int - 'a' as int + 10
    else c as int - 'A' as int + 10
  }

  /** The upper-case hex digit for `d`. */
  function DigitChar(d: nat): (c: char)
    requires d < 16
    ensures IsHexDigit(c) && DigitValue(c) == d
  {
    if d < 10 then ('0' as int + d) as char else ('A' as int + d - 10) as char
  }

  /**
   * `int(field, 16)` for the one- and two-character fields the slices can
   * produce: defined exactly when every character is a hex digit.
   */
  function ParseHexField(f: string): (r: Option<Byte>)
    ensures r.Some? <==> 1 <= |f| <= 2 && forall k :: 0 <= k < |f| ==> IsHexDigit(f[k])
    ensures r.Some? && |f| == 1 ==> r.value == DigitValue(f[0])
    ensures r.Some? && |f| == 2 ==> r.value == 16 * DigitValue(f[0]) + DigitValue(f[1])
  {
    if |f| == 1 && IsHexDigit(f[0]) then Some(DigitValue(f[0]))
    else if |f| == 2 && IsHexDigit(f[0]) && IsHexDigit(f[1]) then Some(16 * DigitValue(f[0]) + DigitValue(f[1]))
    else None
  }

  /**
   * The colour parsed from characters 1-2, 3-4 and 5-6 of `hex` (the
   * leading character is skipped whatever it is); `None` where `int(field, 16)`
   * raises `ValueError` inside its `try`.
   */
  function ParseColorKey(hex: string): (c: Option<Rgb>)
    ensures c.Some? <==> ParseHexField(Slice(hex, 1, 3)).Some? && ParseHexField(Slice(hex, 3, 5)).Some? && ParseHexField(Slice(hex, 5, 7)).Some?
    ensures c.Some? ==> c.value == Rgb(ParseHexField(Slice(hex, 1, 3)).value, ParseHexField(Slice(hex, 3, 5)).value, ParseHexField(Slice(hex, 5, 7)).value)
  {
    var r := ParseHexField(Slice(hex, 1, 3));
    var g := ParseHexField(Slice(hex, 3, 5));
    var b := ParseHexField(Slice(hex, 5, 7));
    if r.Some? && g.Some? && b.Some? then Some(Rgb(r.value, g.value, b.value)) else None
  }

  /**
   * The COLORREF `(b << 16) | (g << 8) | r`, written as the equal sum since
   * each component is a byte: below 2^24, with r, g and b in bytes 0, 1, 2.
   */
  function ColorRef(c: Rgb): (key: nat)
    ensures key < 0x100_0000
    ensures key % 0x100 == c.r
    ensures key / 0x100 % 0x100 == c.g
    ensures key / 0x1_0000 == c.b
  {
    var key := c.b * 0x1_0000 + c.g * 0x100 + c.r;
    DivByteUnique(key, 0x100 * c.b + c.g, c.r);
    DivByteUnique(0x100 * c.b + c.g, c.b, c.g);
    DivWordUnique(key, c.b, 0x100 * c.g + c.r);
    key
  }

  /**
   * On 32-bit words, shifting three bytes into place and OR-ing them is
   * the same as the weighted sum `ColorRef` computes: the fields do not
   * overlap.
   */
  lemma PackIsSum(r: bv32, g: bv32, b: bv32)
    requires r < 0x100 && g < 0x100 && b < 0x100
    ensures (b << 16) | (g << 8) | r == b * 0x1_0000 + g * 0x100 + r
  {
  }

  /** Quotient and remainder by 256 are the unique ones. */
  lemma DivByteUnique(n: int, q: int, r: int)
    requires 0 <= r < 0x100 && n == 0x100 * q + r
    ensures n / 0x100 == q && n % 0x100 == r
  {
  }

  /** Quotient by 65536 is the unique one. */
  lemma DivWordUnique(n: int, q: int, r: int)
    requires 0 <= r < 0x1_0000 && n == 0x1_0000 * q + r
    ensures n / 0x1_0000 == q
  {
  }

  /** Two colours with the same COLORREF are the same colour. */
  lemma ColorRefInjective(c: Rgb, d: Rgb)
    requires ColorRef(c) == ColorRef(d)
    ensures c == d
  {
  }

  /** Two upper-case hex digits for a byte. */
  function FormatByte(b: Byte): (s: string)
    ensures |s| == 2 && IsHexDigit(s[0]) && IsHexDigit(s[1])
    ensures 16 * DigitValue(s[0]) + DigitValue(s[1]) == b
  {
    [DigitChar(b / 16), DigitChar(b % 16)]
  }

  /** The "#RRGGBB" spelling of a colour. */
  function FormatColor(c: Rgb): (hex: string)
    ensures |hex| == 7 && hex[0] == '#'
  {
    "#" + FormatByte(c.r) + FormatByte(c.g) + FormatByte(c.b)
  }

  /** Parsing a formatted colour gives the colour back. */
  lemma ParseFormatRoundTrip(c: Rgb)
    ensures ParseColorKey(FormatColor(c)) == Some(c)
  {
    var hex := FormatColor(c);
    assert Slice(hex, 1, 3) == FormatByte(c.r);
    assert Slice(hex, 3, 5) == FormatByte(c.g);
    assert Slice(hex, 5, 7) == FormatByte(c.b);
  }

  // ---------------------------------------------------------------------
  // Alpha byte

  /** Python's `int(x)` on a float: truncation toward zero. */
  function Trunc(x: real): (n: int)
    ensures 0.0 <= x ==> 0 <= n && n as real <= x < n as real + 1.0
    ensures x < 0.0 ==> n <= 0 && n as real - 1.0 < x <= n as real
  {
    if 0.0 <= x then x.Floor else -((-x).Floor)
  }

  /** `max(0, min(255, int(alpha * 255)))`. */
  function AlphaByte(alpha: real): (b: int)
    ensures 0 <= b <= 255
    ensures 0 <= Trunc(alpha * 255.0) <= 255 ==> b == Trunc(alpha * 255.0)
    ensures Trunc(alpha * 255.0) < 0 ==> b == 0
    ensures 255 < Trunc(alpha * 255.0) ==> b == 255
  {
    var a := Trunc(alpha * 255.0);
    if a < 0 then 0 else if a > 255 then 255 else a
  }

  /** A larger alpha never gives a smaller byte. */
  lemma AlphaByteMonotonic(a: real, a': real)
    requires a <= a'
    ensures AlphaByte(a) <= AlphaByte(a')
  {
    if 0.0 <= a * 255.0 {
      assert Trunc(a * 255.0) <= Trunc(a' * 255.0);
    }
  }

  /**
   * `set_layered_attributes(hwnd, color_key_hex, alpha_float)`: nothing
   * off Windows or when the colour does not parse; otherwise one
   * `SetLayeredWindowAttributes` with both the colour-key and alpha flags.
   */
  function SetLayeredAttributes(p: Platform, hwnd: int, colorKeyHex: string, alpha: real): (calls: seq<NativeCall>)
    ensures calls != [] <==> p == Windows && ParseColorKey(colorKeyHex).Some?
    ensures |calls| <= 1
    ensures forall c :: c in calls ==>
              c.SetLayeredWindowAttributes? && c.hwnd == hwnd &&
              c.colorKey == ColorRef(ParseColorKey(colorKeyHex).value) &&
              c.alpha == AlphaByte(alpha) && c.flags == LWA_COLORKEY | LWA_ALPHA
  {
    if p != Windows then []
    else match ParseColorKey(colorKeyHex)
      case None => []
      case Some(rgb) => [SetLayeredWindowAttributes(hwnd, ColorRef(rgb), AlphaByte(alpha), LWA_COLORKEY | LWA_ALPHA)]
  }

  // ---------------------------------------------------------------------
  // Single-instance guard

  /**
   * `create_single_instance_mutex` as written: `None` exactly when, on
   * Windows, the last error after `CreateMutexW` equals the constant 184
   * it compares with; otherwise the handle `CreateMutexW` returned, or `0`
   * off Windows.
   */
  function CreateSingleInstanceMutex(p: Platform, handle: int, lastError: int): (guard: Option<int>)
    ensures guard.None? <==> p == Windows && lastError == CheckedAlreadyExists
    ensures p != Windows ==> guard == Some(0)
    ensures p == Windows && lastError != CheckedAlreadyExists ==> guard == Some(handle)
  {
    if p != Windows then Some(0)
    else if lastError == CheckedAlreadyExists then None
    else Some(handle)
  }

  /**
   * The guard with the comparison evidently intended: `None` exactly when,
   * on Windows, the OS reports `ERROR_ALREADY_EXISTS`.
   */
  function CreateSingleInstanceMutexIntended(p: Platform, handle: int, lastError: int): (guard: Option<int>)
    ensures guard.None? <==> p == Windows && lastError == ERROR_ALREADY_EXISTS
    ensures p != Windows ==> guard == Some(0)
    ensures p == Windows && lastError != ERROR_ALREADY_EXISTS ==> guard == Some(handle)
  {
    if p != Windows then Some(0)
    else if lastError == ERROR_ALREADY_EXISTS then None
    else Some(handle)
  }

  /**
   * What `GetLastError` reports after `CreateMutexW(name)` when `held` are
   * the names already created: `ERROR_ALREADY_EXISTS` for an existing name,
   * success (0) for a new one.
   */
  function MutexLastError(held: set<string>, name: string): (code: int)
    ensures code == ERROR_ALREADY_EXISTS <==> name in held
    ensures name !in held ==> code == 0
  {
    if name in held then ERROR_ALREADY_EXISTS else 0
  }

  /**
   * As written, the guard lets a second launch through: the OS reports 183
   * for the existing mutex, the code tests for 184, so both launches on
   * Windows get a handle and neither exits.
   */
  lemma SecondLaunchNotBlocked(held: set<string>, name: string, h1: int, h2: int)
    requires name !in held
    ensures CreateSingleInstanceMutex(Windows, h1, MutexLastError(held, name)) == Some(h1)
    ensures CreateSingleInstanceMutex(Windows, h2, MutexLastError(held + {name}, name)) == Some(h2)
  {
  }

  /**
   * With the intended comparison, two launches on Windows under one mutex
   * name: the first gets a guard, the second gets `None` and so exits.
   */
  lemma SecondLaunchBlocked(held: set<string>, name: string, h1: int, h2: int)
    requires name !in held
    ensures CreateSingleInstanceMutexIntended(Windows, h1, MutexLastError(held, name)) == Some(h1)
    ensures CreateSingleInstanceMutexIntended(Windows, h2, MutexLastError(held + {name}, name)).None?
  {
  }
}

=== FILE: wrappers.dfy ===
/** `Option`, used by the I18n, WinUtils, Heartbeat and Settings modules. */
module Wrappers {

  /** A value that may be absent; stands for Python's `None`-or-value returns. */
  datatype Option<+T> = None | Some(value: T)
}
